=== FILE: README.md ===
# giscus presentation helpers in Dafny

A model of the pure helpers of the giscus comment widget's front end,
`lib/utils.ts`, with proofs of what they promise:

- **theme resolution** (`resolveTheme`, `getThemeUrl`): a theme tag becomes
  the "preferred colour scheme" sentinel, one of the built-in themes or
  `custom`, and a built-in theme becomes the path of its stylesheet;
- **anchor stripping** (`cleanAnchor`): the URL is cut just before its last
  `#` that is not followed by `/`; a `#/`, which marks anchor-based routing,
  is never a cut point, but a `#/route` after such a `#` is cut off with it
  (`a#x#/r` becomes `a`);
- **repository parsing** (`parseRepoWithOwner`): `owner/name` split at `/`;
- **Chinese/Latin spacing** (`fixChineseSpace`, `fixChineseSpaceForFunction`):
  one space between each CJK character and a neighbouring basic Latin letter,
  digit or one of `@/*&%#`;
- **digest formatting** (the last step of `digestMessage`): digest bytes as
  lower-case hex, two digits per byte (Base 16 of section 8 of RFC 4648, in
  lower case);
- **`isEmpty`** over JavaScript values, and the height clamp of
  **`resizeTextArea`**, whose element is a small class.

One module per helper: `Theme` (theme.dfy), `Anchor` (anchor.dfy), `Repo`
(repo.dfy), `ChineseSpace` (chinese_space.dfy), `Digest` (digest.dfy),
`Values` (values.dfy), `TextArea` (textarea.dfy), on top of `Wrappers`
(`Option`, standing for JavaScript's `undefined`) and `Strings` (`Join`, the
inverse of the two `split` calls).

Where the code follows a JavaScript library call, the model writes that call
out: `String.prototype.split` with the regular expression `#(?!\/)`
(`Anchor.SplitAtAnchors`) and with `'/'` (`Repo.SplitOn`),
`Number.prototype.toString(16)` (`Digest.ToStringRadix16`) and
`String.prototype.padStart` (`Digest.PadStart`). Each operation is then
related to an independent description of what it means: the last qualifying
`#` for `cleanAnchor`, the first and second `/` for `parseRepoWithOwner`, a
recursive reference spacing `Spaced` for `fixChineseSpace`, a decoder for the
hex formatting and for the stylesheet path.

Two behaviours of the code are worth knowing: `parseRepoWithOwner` splits at
every `/` and keeps the first two pieces, so anything after a second `/` is
dropped; and `fixChineseSpace` walks the string by code points but reads each
neighbour by UTF-16 code unit, so the model takes text from the Basic
Multilingual Plane, where the two agree.

## Model

| member | source | states |
|---|---|---|
| Theme.ResolveTheme | lib/utils.ts:13-21 | the result is an available theme, the sentinel or `custom`; it is the tag itself exactly when the tag is non-empty and available (or is `custom`); it is the sentinel for a tag other than the sentinel exactly when the tag is empty |
| Theme.GetThemeUrl | lib/utils.ts:23-25 | for `custom` the URL is the original tag; otherwise it is a `/themes/<name>.css` path that StylesheetName decodes back to the resolved theme |
| Theme.ThemeUrlInjective | lib/utils.ts:23-25 | two different non-custom themes never get the same URL |
| Theme.ThemeUrlIsTagIffCustom | lib/utils.ts:17-25 | for a resolved tag, the URL equals the tag exactly when the tag resolved to `custom` |
| Theme.ResolveThemeIdempotentIff | lib/utils.ts:17-21 | resolving a resolved tag changes nothing for every tag exactly when the sentinel is among the available themes |
| Theme.ResolveThemeExamples | lib/utils.ts:13-25 | an empty tag gives the sentinel, an available tag itself, an unknown tag `custom`; `custom` keeps the tag as URL and `dark` maps to `/themes/dark.css` |
| Anchor.IsAnchorHashIsLookahead | lib/utils.ts:41 | the regular expression `#(?!\/)` matches at an index exactly when it holds `#` and the text after it does not start with `/` |
| Anchor.SplitFrom | lib/utils.ts:41 | the regex split yields at least one piece; the last piece is a suffix with no `#` that is not followed by `/`, and an anchor hash stands right before it when there is more than one piece |
| Anchor.SplitAtAnchors | lib/utils.ts:41 | the split of the whole string has at least one piece; SplitAtAnchorsCuts says which |
| Anchor.SplitAtAnchorsCuts | lib/utils.ts:41 | the pieces are consecutive slices of the input with no anchor hash inside them, the first starting at 0 and the last ending at the end, and between consecutive pieces stands exactly one anchor hash |
| Anchor.CutsAtUnique | lib/utils.ts:41 | only one list of pieces cuts a string that way, so SplitAtAnchorsCuts determines the split completely |
| Anchor.JoinSplitAtAnchors | lib/utils.ts:41 | joining the split pieces with `#` gives back the input: the split loses nothing but the separators |
| Anchor.CleanAnchor | lib/utils.ts:37-46 | the result is a prefix of the input; it is the input exactly when there is no `#` not followed by `/`; otherwise the input has such a `#` at the result's length and none after it |
| Anchor.CleanAnchorKeepsEarlierHashes | lib/utils.ts:40-45 | below the cut, a `#` qualifies in the result exactly when it qualifies in the input |
| Anchor.CleanAnchorIdempotentIff | lib/utils.ts:40-45 | stripping twice is stripping once exactly when the input has at most one qualifying `#` |
| Anchor.CleanAnchorNotIdempotent | lib/utils.ts:40-45 | `a#b#c` becomes `a#b`, which becomes `a` |
| Anchor.CleanAnchorStripsFragment | lib/utils.ts:37-46 | `https://a.b/#section` becomes `https://a.b/` |
| Anchor.CleanAnchorKeepsRoute | lib/utils.ts:37-46 | `https://a.b/#/route` is unchanged |
| Anchor.CleanAnchorCutsLaterRoute | lib/utils.ts:37-46 | `a#x#/r` becomes `a`: a `#/route` after the last anchor hash is cut off with it |
| Repo.SplitOn | lib/utils.ts:67 | `split('/')` yields at least one piece, no piece holds `/`, and the pieces joined with `/` give back the input |
| Repo.ParseRepoWithOwner | lib/utils.ts:66-69 | the owner is a `/`-free prefix, the whole input when there is no `/`; the name is absent exactly when there is no `/`; otherwise it is the `/`-free text right after the first `/`, ending at the end or at the second `/` |
| Repo.ParseOneSlashRoundTrip | lib/utils.ts:66-69 | with exactly one `/`, `owner + "/" + name` is the input |
| Repo.ParseRepoWithOwnerOf | lib/utils.ts:66-69 | `owner/name` followed by nothing or by `/...` parses to that owner and name: extra segments are ignored |
| Repo.ParseRepoWithOwnerExample | lib/utils.ts:66-69 | `octo/repo` gives owner `octo` and name `repo` |
| Strings.Join | lib/utils.ts:67 | joining pieces with a separator, the inverse of `split`, starts with the first piece, followed by the separator when there are more pieces |
| ChineseSpace.IsChinese | lib/utils.ts:102 | a CJK character is neither Latin nor a space |
| ChineseSpace.IsLatin | lib/utils.ts:103 | a Latin character is ASCII and not a space |
| ChineseSpace.SpaceBefore | lib/utils.ts:107 | the callback's leading space is empty or one space, and a space only for a CJK character after a Latin one |
| ChineseSpace.SpaceAfter | lib/utils.ts:108 | the callback's trailing space is empty or one space, and a space only for a CJK character before a Latin one |
| ChineseSpace.Piece | lib/utils.ts:104-110 | the callback returns one to three characters: the character itself and spaces |
| ChineseSpace.PiecesFrom | lib/utils.ts:104-111 | the joined pieces are at least as long as the characters they come from |
| ChineseSpace.FixChineseSpace | lib/utils.ts:101-112 | on BMP text, the source's map-and-join equals the reference spacing `Spaced` |
| ChineseSpace.PiecesFromIsSpaced | lib/utils.ts:104-111 | the joined pieces from index `i` on are the spacing of the rest of the string, after the space the `i`-th character puts before itself |
| ChineseSpace.OneSpacePerPair | lib/utils.ts:107-109 | of the "space after a CJK character" and "space before a CJK character" tests on one neighbouring pair, exactly one fires when the pair is mixed and none otherwise |
| ChineseSpace.FixChineseSpaceFor | lib/utils.ts:114-119 | the wrapped function is defined wherever the wrapped one returns BMP text, and returns its result spaced |
| ChineseSpace.Spaced | lib/utils.ts:101-112 | the spaced text of a non-empty string starts with its first character |
| ChineseSpace.SpacedLength | lib/utils.ts:101-112 | output length is input length plus the number of mixed neighbouring pairs |
| ChineseSpace.SpacedPositions | lib/utils.ts:101-112 | the input characters appear in order in the output, consecutive ones directly adjacent or separated by one space exactly when they form a mixed pair: deleting the inserted spaces gives back the input |
| ChineseSpace.SpacedChars | lib/utils.ts:101-112 | every output character is a space or a character of the input |
| ChineseSpace.SpacedHasNoMixedPair | lib/utils.ts:102-109 | after spacing no CJK and Latin characters are neighbours |
| ChineseSpace.SpacedUnchangedIff | lib/utils.ts:101-112 | spacing leaves a string unchanged exactly when it has no mixed neighbouring pair |
| ChineseSpace.SpacedIdempotent | lib/utils.ts:101-112 | spacing twice is spacing once |
| ChineseSpace.SpacedWithoutChinese | lib/utils.ts:101-112 | a string with no CJK character is returned unchanged |
| ChineseSpace.FixChineseSpaceIdempotent | lib/utils.ts:101-112 | on BMP text the result is BMP text again and a second pass changes nothing |
| ChineseSpace.FixChineseSpaceExamples | lib/utils.ts:101-112 | `我a` becomes `我 a`; `aa` is unchanged |
| ChineseSpace.SpacedNotInjective | lib/utils.ts:101-112 | `a我` and `a 我` give the same output, so no decoder can tell inserted spaces from original ones |
| Digest.ToStringRadix16 | lib/utils.ts:83 | `toString(16)` gives at least one lower-case hex digit, the digits denote `n` (HexValue, most significant first), and there is no leading zero unless `n` is a single digit |
| Digest.PadStart | lib/utils.ts:83 | `padStart` keeps the string as a suffix, fills the rest with the fill character, and reaches the width when shorter |
| Digest.ByteToHex | lib/utils.ts:83 | a byte becomes exactly two digits, the high nibble then the low nibble |
| Digest.HexEncode | lib/utils.ts:82-83 | `n` bytes become `2n` characters, each a lower-case hex digit |
| Digest.HexDecode | lib/utils.ts:82-83 | the decoder accepts exactly the even-length strings of lower-case hex digits and yields half as many bytes |
| Digest.HexDecodeEncode | lib/utils.ts:82-83 | decoding the hex text of any bytes gives back those bytes |
| Digest.HexEncodeDecode | lib/utils.ts:82-83 | every string the decoder accepts is the hex text of its decoding |
| Digest.Sha1HexLength | lib/utils.ts:78-84 | a 20-byte SHA-1 digest becomes 40 characters |
| Digest.ByteToHexExamples | lib/utils.ts:83 | 0, 10, 171 and 255 become `00`, `0a`, `ab` and `ff` |
| Values.IsEmpty | lib/utils.ts:58-60 | an empty value is falsy |
| Values.IsEmptyIsFalsyButZeroOrFalse | lib/utils.ts:58-60 | a value is empty exactly when it is falsy and is neither zero nor `false` |
| TextArea.ClampHeight | lib/utils.ts:72-74 | the height is at most 270 and at most the scroll height, and is one of the two |
| TextArea.Element.ScrollHeight | lib/utils.ts:73-74 | the scroll height is the larger of the box's height and its text's height |
| TextArea.ResizeTextArea | lib/utils.ts:71-76 | the new height is the text's height clamped to 270, and text that fits is shown whole without scrolling |

## Left out

- `getOriginHost` and `cleanSessionParam` (lib/utils.ts:27-35, 48-56): they rest on the URL parser and query-string serialiser of the platform, which are not part of this model; their own logic is only "on a parse failure return empty strings / the input".
- The digest itself in `digestMessage` (lib/utils.ts:80-81): the UTF-8 encoding by `TextEncoder` and `subtle.digest` are platform calls; only the hex formatting of the returned bytes is modelled.
- The start-up assignment of `webcrypto` (lib/utils.ts:3-11): an asynchronous platform lookup, and with it the failure of a digest requested before it completes.
- `clipboardCopy` (lib/utils.ts:62-64): one asynchronous browser call with no logic of its own.
- `hasStorageAccess` (lib/utils.ts:87-98): it only puts browser permission calls in order: an unsupported API counts as granted, access already granted returns at once, and otherwise a failed request is ignored and the status read again. None of those browser calls is represented in this model.
- `availableThemes` is defined outside lib/utils.ts, so `Theme` takes the set of available themes as a parameter; `isAvailableTheme` is membership in it.
- Theme.ResolveTheme: `!theme` also holds for `undefined` and `null`; the model's tag is a string, so only the empty string takes that branch.
- ChineseSpace.FixChineseSpace: requires BMP text. The source iterates code points (`Array.from`) but indexes `str[i]` in UTF-16 code units, so after a character outside the BMP its neighbour tests look at the wrong characters; that behaviour is not modelled.
- TextArea.ResizeTextArea: the browser's layout is reduced to one rule, scroll height = the larger of the box's height and its text's height; the intermediate `0px` style write is modelled, the pixel string formatting is not.
- Values: BigInt, symbols, functions and the sign of zero are not distinguished; every object is one `Object` value.

=== FILE: anchor.dfy ===
/**
 * Anchor stripping (lib/utils.ts, `cleanAnchor`).
 * The source splits the string with the regular expression `#(?!\/)`, a `#`
 * not followed by `/`, and cuts the string just before the last piece. A `#/`
 * marks anchor-based routing in a single-page app and is never a cut point,
 * but a `#/route` after the last cut point goes with everything else there.
 */
module Anchor {
  import opened Strings

  /** Does the regular expression `#(?!\/)` match at index `i` of `s`? */
  predicate IsAnchorHash(s: string, i: int) {
    0 <= i < |s| && s[i] == '#' && (i + 1 == |s| || s[i + 1] != '/')
  }

  /** IsAnchorHash is a `#` at `i` where the lookahead `(?!\/)` succeeds: what follows does not start with `/`. */
  lemma IsAnchorHashIsLookahead(s: string, i: int)
    ensures IsAnchorHash(s, i) <==> 0 <= i < |s| && s[i] == '#' && !IsPrefix("/", s[i + 1..])
  {
  }

  predicate NoAnchorHash(s: string) {
    forall j | 0 <= j < |s| :: !IsAnchorHash(s, j)
  }

  function Last(pieces: seq<string>): string
    requires |pieces| >= 1
  {
    pieces[|pieces| - 1]
  }

  /**
   * The pieces of `s[start..]` when split at every anchor hash, given that the
   * scan has reached index `i` and found none in `s[start..i]`.
   * The last piece is a suffix of `s` holding no anchor hash, and when there is
   * more than one piece an anchor hash stands just before it.
   */
  function SplitFrom(s: string, start: nat, i: nat): (pieces: seq<string>)
    requires start <= i <= |s|
    requires forall j | start <= j < i :: !IsAnchorHash(s, j)
    ensures |pieces| >= 1
    ensures |Last(pieces)| <= |s| - start && Last(pieces) == s[|s| - |Last(pieces)|..]
    ensures forall j | |s| - |Last(pieces)| <= j < |s| :: !IsAnchorHash(s, j)
    ensures |pieces| == 1 <==> |Last(pieces)| == |s| - start
    ensures |pieces| > 1 ==> IsAnchorHash(s, |s| - |Last(pieces)| - 1)
    decreases |s| - i
  {
    if i == |s| then [s[start..]]
    else if IsAnchorHash(s, i) then [s[start..i]] + SplitFrom(s, i + 1, i + 1)
    else SplitFrom(s, start, i + 1)
  }

  /**
   * The pieces are the text of `s[start..]` between consecutive anchor hashes:
   * each piece is a stretch of `s` holding no anchor hash, the next piece
   * starts one character (the anchor hash) after it, and the last piece runs
   * to the end of `s`.
   */
  ghost predicate CutsAt(s: string, start: nat, pieces: seq<string>)
    decreases |pieces|
  {
    && |pieces| >= 1
    && start + |pieces[0]| <= |s|
    && s[start..start + |pieces[0]|] == pieces[0]
    && (forall j | start <= j < start + |pieces[0]| :: !IsAnchorHash(s, j))
    && if |pieces| == 1 then start + |pieces[0]| == |s|
       else IsAnchorHash(s, start + |pieces[0]|) && CutsAt(s, start + |pieces[0]| + 1, pieces[1..])
  }

  lemma {:induction false} SplitFromCuts(s: string, start: nat, i: nat)
    requires start <= i <= |s|
    requires forall j | start <= j < i :: !IsAnchorHash(s, j)
    ensures CutsAt(s, start, SplitFrom(s, start, i))
    decreases |s| - i
  {
    if i == |s| {
      assert SplitFrom(s, start, i) == [s[start..]];
    } else if IsAnchorHash(s, i) {
      var rest := SplitFrom(s, i + 1, i + 1);
      SplitFromCuts(s, i + 1, i + 1);
      assert SplitFrom(s, start, i) == [s[start..i]] + rest;
      CutsAtCons(s, start, i, rest);
    } else {
      SplitFromCuts(s, start, i + 1);
    }
  }

  lemma CutsAtCons(s: string, start: nat, i: nat, rest: seq<string>)
    requires start <= i < |s| && IsAnchorHash(s, i)
    requires forall j | start <= j < i :: !IsAnchorHash(s, j)
    requires CutsAt(s, i + 1, rest)
    ensures CutsAt(s, start, [s[start..i]] + rest)
  {
    var pieces := [s[start..i]] + rest;
    assert pieces[0] == s[start..i] && pieces[1..] == rest;
  }

  /** There is only one way to cut a string at its anchor hashes. */
  lemma {:induction false} CutsAtUnique(s: string, start: nat, p: seq<string>, q: seq<string>)
    requires CutsAt(s, start, p) && CutsAt(s, start, q)
    ensures p == q
    decreases |p|
  {
    var a, b := start + |p[0]|, start + |q[0]|;
    assert a < b ==> !IsAnchorHash(s, a);
    assert b < a ==> !IsAnchorHash(s, b);
    assert a == b;
    assert p[0] == q[0];
    if |p| > 1 && |q| > 1 {
      CutsAtUnique(s, a + 1, p[1..], q[1..]);
      assert p == [p[0]] + p[1..] && q == [q[0]] + q[1..];
    }
  }

  /** `s.split(/#(?!\/)/)`; SplitAtAnchorsCuts says which pieces it yields. */
  function SplitAtAnchors(s: string): (pieces: seq<string>)
    ensures |pieces| >= 1
  {
    SplitFrom(s, 0, 0)
  }

  /**
   * The split yields exactly the text between consecutive anchor hashes: every
   * cut is at an anchor hash and every anchor hash is a cut.
   */
  lemma SplitAtAnchorsCuts(s: string)
    ensures CutsAt(s, 0, SplitAtAnchors(s))
  {
    SplitFromCuts(s, 0, 0);
  }

  /**
   * `cleanAnchor`: the result is a prefix of `s`; it is `s` itself when `s`
   * holds no anchor hash, and otherwise it ends just before the last one.
   */
  function CleanAnchor(s: string): (r: string)
    ensures IsPrefix(r, s)
    ensures r == s <==> NoAnchorHash(s)
    ensures r != s ==> IsAnchorHash(s, |r|) && forall j | |r| < j :: !IsAnchorHash(s, j)
  {
    var split := SplitAtAnchors(s);
    var length := if |split| > 1 then |s| - (|Last(split)| + 1) else |s|;
    s[..length]
  }

  lemma {:induction false} JoinSplitFrom(s: string, start: nat, i: nat)
    requires start <= i <= |s|
    requires forall j | start <= j < i :: !IsAnchorHash(s, j)
    ensures Join(SplitFrom(s, start, i), '#') == s[start..]
    decreases |s| - i
  {
    if i == |s| {
    } else if IsAnchorHash(s, i) {
      var rest := SplitFrom(s, i + 1, i + 1);
      JoinSplitFrom(s, i + 1, i + 1);
      JoinAfterHash(s, start, i, rest);
    } else {
      JoinSplitFrom(s, start, i + 1);
    }
  }

  lemma JoinAfterHash(s: string, start: nat, i: nat, rest: seq<string>)
    requires start <= i < |s| && s[i] == '#' && |rest| >= 1
    requires Join(rest, '#') == s[i + 1..]
    ensures Join([s[start..i]] + rest, '#') == s[start..]
  {
    JoinCons(s[start..i], rest, '#');
    SplitAround(s, start, i);
  }

  /** Joining the split pieces with `#` gives back the string: the split loses nothing but the separators. */
  lemma JoinSplitAtAnchors(s: string)
    ensures Join(SplitAtAnchors(s), '#') == s
  {
    JoinSplitFrom(s, 0, 0);
  }

  /** Below the cut, a hash is an anchor hash of the result exactly when it is one of the input. */
  lemma CleanAnchorKeepsEarlierHashes(s: string, j: int)
    requires 0 <= j < |CleanAnchor(s)|
    ensures IsAnchorHash(CleanAnchor(s), j) <==> IsAnchorHash(s, j)
  {
    var r := CleanAnchor(s);
    if r != s && j + 1 == |r| {
      assert IsAnchorHash(s, |r|);
    }
  }

  /**
   * Only the last anchor hash is stripped, so stripping twice changes nothing
   * exactly when the input holds at most one anchor hash.
   */
  lemma CleanAnchorIdempotentIff(s: string)
    ensures CleanAnchor(CleanAnchor(s)) == CleanAnchor(s)
            <==> forall i, j :: IsAnchorHash(s, i) && IsAnchorHash(s, j) ==> i == j
  {
    var r := CleanAnchor(s);
    if r != s {
      var k := |r|;
      if CleanAnchor(r) == r {
        forall i | 0 <= i < k ensures !IsAnchorHash(s, i) {
          CleanAnchorKeepsEarlierHashes(s, i);
        }
      } else {
        var i :| 0 <= i < |r| && IsAnchorHash(r, i);
        CleanAnchorKeepsEarlierHashes(s, i);
        assert IsAnchorHash(s, i) && IsAnchorHash(s, k) && i != k;
      }
    }
  }

  /** `a#b#c` becomes `a#b`, which becomes `a`: the source's stripping is not idempotent. */
  lemma CleanAnchorNotIdempotent()
    ensures CleanAnchor("a#b#c") == "a#b"
    ensures CleanAnchor("a#b") == "a"
  {
    CleanAnchorLastOfTwo();
    var t := "a#b";
    assert !IsAnchorHash(t, 0) && IsAnchorHash(t, 1) && !IsAnchorHash(t, 2);
    assert |CleanAnchor(t)| == 1;
  }

  lemma CleanAnchorLastOfTwo()
    ensures CleanAnchor("a#b#c") == "a#b"
  {
    var s := "a#b#c";
    assert IsAnchorHash(s, 3);
    assert !IsAnchorHash(s, 4);
    assert |CleanAnchor(s)| == 3;
  }

  /** A fragment is stripped. */
  lemma CleanAnchorStripsFragment()
    ensures CleanAnchor("https://a.b/#section") == "https://a.b/"
  {
    var s := "https://a.b/#section";
    assert IsAnchorHash(s, 12);
    assert forall j | 0 <= j < |s| && j != 12 :: s[j] != '#';
    var r := CleanAnchor(s);
    assert r != s;
    assert |r| == 12;
  }

  /** An anchor-routed path is left alone. */
  lemma CleanAnchorKeepsRoute()
    ensures CleanAnchor("https://a.b/#/route") == "https://a.b/#/route"
  {
    var t := "https://a.b/#/route";
    assert forall j | 0 <= j < |t| :: !IsAnchorHash(t, j);
  }

  /** A route after the last anchor hash is cut off with it. */
  lemma CleanAnchorCutsLaterRoute()
    ensures CleanAnchor("a#x#/r") == "a"
  {
    var s := "a#x#/r";
    assert !IsAnchorHash(s, 0) && IsAnchorHash(s, 1) && !IsAnchorHash(s, 2);
    assert forall j | 2 <= j < |s| :: !IsAnchorHash(s, j);
    assert |CleanAnchor(s)| == 1;
  }
}

=== FILE: chinese_space.dfy ===
/**
 * Spacing between Chinese and Latin text (lib/utils.ts, `fixChineseSpace` and
 * `fixChineseSpaceForFunction`). A space is put between every CJK character
 * and a neighbouring Latin letter, digit or one of the six symbols of IsLatin.
 *
 * The source walks the string by code points but looks at neighbours by
 * UTF-16 code units; the two agree on text from the Basic Multilingual Plane,
 * which is what the model of the source's function accepts.
 */
module ChineseSpace {

  /** U+3400 to U+9FBF: CJK Unified Ideographs Extension A and the main block. */
  predicate IsChinese(c: char): (r: bool)
    ensures r ==> !IsLatin(c) && c != ' '
  {
    '\U{3400}' <= c <= '\U{9FBF}'
  }

  /** A basic Latin letter or digit, or one of the symbols at, slash, star, ampersand, percent, hash. */
  predicate IsLatin(c: char): (r: bool)
    ensures r ==> c != ' ' && c <= '\U{007F}'
  {
    ('a' <= c <= 'z') || ('A' <= c <= 'Z') || ('0' <= c <= '9') || c in "@/*&%#"
  }

  /** One character of the pair is CJK and the other Latin: a space belongs between them. */
  predicate Mixed(a: char, b: char) {
    (IsChinese(a) && IsLatin(b)) || (IsLatin(a) && IsChinese(b))
  }

  /** Every character is one UTF-16 code unit. */
  predicate IsBmp(s: string) {
    forall i | 0 <= i < |s| :: s[i] <= '\U{FFFF}'
  }

  /** No two neighbouring characters call for a space between them. */
  predicate NoMixedPair(s: string) {
    forall k | 0 <= k < |s| - 1 :: !Mixed(s[k], s[k + 1])
  }

  /** The number of neighbouring pairs that call for a space. */
  function MixedCount(s: string): nat
    decreases |s|
  {
    if |s| <= 1 then 0
    else (if Mixed(s[0], s[1]) then 1 else 0) + MixedCount(s[1..])
  }

  /**
   * The reference definition: `s` with one space between each mixed pair of
   * neighbours. The result starts with the same character as `s`.
   */
  function Spaced(s: string): (r: string)
    ensures |s| > 0 ==> |r| > 0 && r[0] == s[0]
    decreases |s|
  {
    if |s| <= 1 then s
    else [s[0]] + (if Mixed(s[0], s[1]) then " " else "") + Spaced(s[1..])
  }

  /** The space the character at index `i` puts before itself: it is CJK and its predecessor Latin. */
  function SpaceBefore(s: string, i: nat): (r: string)
    requires i < |s|
    ensures r == "" || r == " "
    ensures r == " " ==> i > 0 && IsChinese(s[i]) && Mixed(s[i - 1], s[i])
  {
    if i > 0 && IsChinese(s[i]) && IsLatin(s[i - 1]) then " " else ""
  }

  /** The space the character at index `i` puts after itself: it is CJK and its successor Latin. */
  function SpaceAfter(s: string, i: nat): (r: string)
    requires i < |s|
    ensures r == "" || r == " "
    ensures r == " " ==> i + 1 < |s| && IsChinese(s[i]) && Mixed(s[i], s[i + 1])
  {
    if i < |s| - 1 && IsChinese(s[i]) && IsLatin(s[i + 1]) then " " else ""
  }

  /** The text the source's `map` callback returns for the character at index `i`. */
  function Piece(s: string, i: nat): (r: string)
    requires i < |s|
    ensures 1 <= |r| <= 3 && s[i] in r
    ensures forall k | 0 <= k < |r| :: r[k] == s[i] || r[k] == ' '
  {
    SpaceBefore(s, i) + [s[i]] + SpaceAfter(s, i)
  }

  /** `.join("")` of the pieces from index `i` on. */
  function PiecesFrom(s: string, i: nat): (r: string)
    requires i <= |s|
    ensures |r| >= |s| - i
    decreases |s| - i
  {
    if i == |s| then "" else Piece(s, i) + PiecesFrom(s, i + 1)
  }

  /** `fixChineseSpace`: on BMP text it is the reference spacing. */
  function FixChineseSpace(s: string): (r: string)
    requires IsBmp(s)
    ensures r == Spaced(s)
  {
    PiecesAreSpaced(s);
    PiecesFrom(s, 0)
  }

  /**
   * `fixChineseSpaceForFunction`: wraps a string-valued function so that its
   * results are spaced.
   */
  function FixChineseSpaceFor<A(!new)>(f: A -> string): (g: A --> string)
    ensures forall x :: IsBmp(f(x)) ==> g.requires(x) && g(x) == Spaced(f(x))
  {
    (x: A) requires IsBmp(f(x)) => FixChineseSpace(f(x))
  }

  /** Of the two spaces a mixed pair could call for, exactly one is produced. */
  lemma OneSpacePerPair(s: string, i: nat)
    requires i + 1 < |s|
    ensures SpaceAfter(s, i) + SpaceBefore(s, i + 1) == if Mixed(s[i], s[i + 1]) then " " else ""
  {
  }

  /**
   * From index `i` on, the pieces are the reference spacing of `s[i..]`,
   * preceded by the space that the character at `i` puts before itself.
   */
  lemma {:induction false} PiecesFromIsSpaced(s: string, i: nat)
    requires i < |s|
    ensures PiecesFrom(s, i) == SpaceBefore(s, i) + Spaced(s[i..])
    decreases |s| - i
  {
    if i == |s| - 1 {
      assert s[i..] == [s[i]];
    } else {
      PiecesFromIsSpaced(s, i + 1);
      OneSpacePerPair(s, i);
      SpacedFrom(s, i);
      Regroup(SpaceBefore(s, i), [s[i]], SpaceAfter(s, i), SpaceBefore(s, i + 1), Spaced(s[i + 1..]));
    }
  }

  /** One step of the reference spacing, taken inside `s`. */
  lemma SpacedFrom(s: string, i: nat)
    requires i + 1 < |s|
    ensures Spaced(s[i..]) == [s[i]] + (if Mixed(s[i], s[i + 1]) then " " else "") + Spaced(s[i + 1..])
  {
    var t := s[i..];
    assert t[0] == s[i] && t[1] == s[i + 1] && t[1..] == s[i + 1..];
  }

  lemma Regroup(a: string, b: string, c: string, d: string, e: string)
    ensures a + b + c + (d + e) == a + (b + (c + d) + e)
  {
  }

  lemma PiecesAreSpaced(s: string)
    ensures PiecesFrom(s, 0) == Spaced(s)
  {
    if |s| > 0 {
      PiecesFromIsSpaced(s, 0);
      assert s[0..] == s;
    }
  }

  /** Spacing adds nothing but spaces. */
  lemma {:induction false} SpacedChars(s: string)
    ensures forall k | 0 <= k < |Spaced(s)| :: Spaced(s)[k] == ' ' || Spaced(s)[k] in s
    decreases |s|
  {
    if |s| > 1 {
      SpacedChars(s[1..]);
      var r, rest := Spaced(s), Spaced(s[1..]);
      var gap := if Mixed(s[0], s[1]) then " " else "";
      assert r == [s[0]] + gap + rest;
      forall k | 0 <= k < |r| ensures r[k] == ' ' || r[k] in s {
        if k > |gap| {
          assert r[k] == rest[k - |gap| - 1];
          if r[k] != ' ' {
            assert r[k] in s[1..];
          }
        }
      }
    }
  }

  /** Exactly one space is inserted per mixed pair. */
  lemma {:induction false} SpacedLength(s: string)
    ensures |Spaced(s)| == |s| + MixedCount(s)
    decreases |s|
  {
    if |s| > 1 {
      SpacedLength(s[1..]);
    }
  }

  /** Where the input character at index `j` lands in the spaced text. */
  function Position(s: string, j: nat): nat
    requires j < |s|
  {
    j + MixedCount(s[..j + 1])
  }

  lemma PositionInTail(s: string, j: nat)
    requires 1 <= j < |s|
    ensures Position(s, j) == 1 + (if Mixed(s[0], s[1]) then 1 else 0) + Position(s[1..], j - 1)
  {
    var p := s[..j + 1];
    assert p[0] == s[0] && p[1] == s[1] && p[1..] == s[1..][..j];
  }

  /**
   * Where everything lands: the input characters appear in order, the `j`-th
   * at Position(s, j); the next one follows directly, or after one space when
   * the two are a mixed pair. With Position(s, 0) == 0 and SpacedLength these
   * positions and spaces cover the whole output, so deleting the inserted
   * spaces gives back the input.
   */
  lemma {:induction false} SpacedPositions(s: string, j: nat)
    requires j < |s|
    ensures Position(s, j) < |Spaced(s)| && Spaced(s)[Position(s, j)] == s[j]
    ensures j + 1 < |s| ==>
              Position(s, j + 1) == Position(s, j) + 1 + (if Mixed(s[j], s[j + 1]) then 1 else 0)
    ensures j + 1 < |s| && Mixed(s[j], s[j + 1]) ==>
              Position(s, j) + 1 < |Spaced(s)| && Spaced(s)[Position(s, j) + 1] == ' '
    decreases |s|
  {
    if |s| > 1 {
      if j == 0 {
        SpacedPositionsFirst(s);
      } else {
        var t := s[1..];
        SpacedPositions(t, j - 1);
        PositionInTail(s, j);
        SpacedTailIndex(s, Position(t, j - 1));
        if j + 1 < |s| {
          PositionInTail(s, j + 1);
          if Mixed(s[j], s[j + 1]) {
            SpacedTailIndex(s, Position(t, j - 1) + 1);
          }
        }
      }
    }
  }

  /** The spacing of the tail sits at the end of the spacing of the whole. */
  lemma SpacedTailIndex(s: string, k: nat)
    requires 1 < |s| && k < |Spaced(s[1..])|
    ensures var offset := 1 + (if Mixed(s[0], s[1]) then 1 else 0);
            offset + k < |Spaced(s)| && Spaced(s)[offset + k] == Spaced(s[1..])[k]
  {
  }

  /** SpacedPositions for the first character. */
  lemma SpacedPositionsFirst(s: string)
    requires 1 < |s|
    ensures Position(s, 0) == 0 && Spaced(s)[0] == s[0]
    ensures Position(s, 1) == 1 + (if Mixed(s[0], s[1]) then 1 else 0)
    ensures Mixed(s[0], s[1]) ==> 1 < |Spaced(s)| && Spaced(s)[1] == ' '
  {
    assert s[..1] == [s[0]];
    PositionInTail(s, 1);
    assert s[1..][..1] == [s[1]];
  }

  /** After spacing, no CJK and Latin characters are neighbours: a space is neither. */
  lemma {:induction false} SpacedHasNoMixedPair(s: string)
    ensures NoMixedPair(Spaced(s))
    decreases |s|
  {
    if |s| > 1 {
      SpacedHasNoMixedPair(s[1..]);
      var r, rest := Spaced(s), Spaced(s[1..]);
      var gap := if Mixed(s[0], s[1]) then " " else "";
      assert r == [s[0]] + gap + rest;
      assert rest[0] == s[1];
      forall k | 0 <= k < |r| - 1 ensures !Mixed(r[k], r[k + 1]) {
        if k >= |gap| + 1 {
          assert r[k] == rest[k - |gap| - 1] && r[k + 1] == rest[k - |gap|];
        } else if gap == " " {
          assert r[k + 1] == ' ' || r[k] == ' ';
        }
      }
    }
  }

  /** Spacing leaves a string unchanged exactly when it has no mixed pair. */
  lemma {:induction false} SpacedUnchangedIff(s: string)
    ensures Spaced(s) == s <==> NoMixedPair(s)
    decreases |s|
  {
    if NoMixedPair(s) {
      if |s| > 1 {
        assert NoMixedPair(s[1..]) by {
          forall k | 0 <= k < |s[1..]| - 1 ensures !Mixed(s[1..][k], s[1..][k + 1]) {
            assert s[1..][k] == s[k + 1] && s[1..][k + 1] == s[k + 2];
          }
        }
        SpacedUnchangedIff(s[1..]);
        assert !Mixed(s[0], s[1]);
      }
    } else {
      SpacedHasNoMixedPair(s);
    }
  }

  /** Spacing twice is spacing once. */
  lemma SpacedIdempotent(s: string)
    ensures Spaced(Spaced(s)) == Spaced(s)
  {
    SpacedHasNoMixedPair(s);
    SpacedUnchangedIff(Spaced(s));
  }

  /** Text without CJK characters is returned unchanged. */
  lemma SpacedWithoutChinese(s: string)
    requires forall i | 0 <= i < |s| :: !IsChinese(s[i])
    ensures Spaced(s) == s
  {
    SpacedUnchangedIff(s);
  }

  /** The source's function on BMP text is idempotent and yields BMP text again. */
  lemma FixChineseSpaceIdempotent(s: string)
    requires IsBmp(s)
    ensures IsBmp(FixChineseSpace(s)) && FixChineseSpace(FixChineseSpace(s)) == FixChineseSpace(s)
  {
    var r := FixChineseSpace(s);
    SpacedChars(s);
    forall i | 0 <= i < |r| ensures r[i] <= '\U{FFFF}' {
      if r[i] != ' ' {
        var j :| 0 <= j < |s| && s[j] == r[i];
      }
    }
    SpacedIdempotent(s);
  }

  lemma FixChineseSpaceExamples()
    ensures FixChineseSpace("我a") == "我 a"
    ensures FixChineseSpace("aa") == "aa"
  {
    assert Mixed('我', 'a');
    assert Spaced("我a") == ['我'] + " " + Spaced("a");
  }

  /**
   * A space the input already had cannot be told from an inserted one, so the
   * spacing has no inverse on its own: the inserted spaces are the ones at the
   * places SpacedPositions names.
   */
  lemma SpacedNotInjective()
    ensures Spaced("a我") == Spaced("a 我") == "a 我"
  {
    assert Mixed('a', '我');
    assert Spaced("a我") == ['a'] + " " + Spaced("我");
    assert Spaced("a 我") == ['a'] + Spaced(" 我");
    assert Spaced(" 我") == [' '] + Spaced("我");
  }
}

=== FILE: digest.dfy ===
/**
 * The hex formatting step of `digestMessage` (lib/utils.ts): each byte of the
 * digest becomes `b.toString(16).padStart(2, '0')` and the results are joined.
 * This is Base 16 as in section 8 of RFC 4648, with lower-case digits.
 * The digest itself comes from the platform and is not modelled.
 */
module Digest {
  import opened Wrappers

  type byte = x: int | 0 <= x < 256

  predicate IsLowerHexDigit(c: char) {
    '0' <= c <= '9' || 'a' <= c <= 'f'
  }

  /** The lower-case digit for `d`, as `Number.prototype.toString(16)` writes it. */
  function HexDigit(d: int): (c: char)
    requires 0 <= d < 16
    ensures IsLowerHexDigit(c)
    ensures c == '0' <==> d == 0
  {
    if d < 10 then ('0' as int + d) as char else ('a' as int + d - 10) as char
  }

  /** The value of a lower-case hex digit. */
  function DigitValue(c: char): (d: int)
    requires IsLowerHexDigit(c)
    ensures 0 <= d < 16 && HexDigit(d) == c
  {
    if c <= '9' then c as int - '0' as int else c as int - 'a' as int + 10
  }

  /** Each digit reads back as its value. */
  lemma DigitValueOfHexDigit(d: int)
    requires 0 <= d < 16
    ensures DigitValue(HexDigit(d)) == d
  {
  }

  predicate AllLowerHexDigits(s: string) {
    forall k | 0 <= k < |s| :: IsLowerHexDigit(s[k])
  }

  /** The number a string of hex digits denotes, most significant digit first. */
  function HexValue(s: string): nat
    requires AllLowerHexDigits(s)
    decreases |s|
  {
    if s == [] then 0 else 16 * HexValue(s[..|s| - 1]) + DigitValue(s[|s| - 1])
  }

  /** `n.toString(16)`: the hex digits that denote `n`, without leading zeros. */
  function ToStringRadix16(n: nat): (s: string)
    ensures 1 <= |s| && AllLowerHexDigits(s)
    ensures HexValue(s) == n
    ensures n < 16 || s[0] != '0'
    decreases n
  {
    if n < 16 then
      DigitValueOfHexDigit(n);
      [HexDigit(n)]
    else
      var high, low := ToStringRadix16(n / 16), HexDigit(n % 16);
      var s := high + [low];
      assert s[..|s| - 1] == high && s[|s| - 1] == low && s[0] == high[0];
      DigitValueOfHexDigit(n % 16);
      s
  }

  /** `s.padStart(width, fill)` for a one-character fill. */
  function PadStart(s: string, width: nat, fill: char): (r: string)
    ensures |r| == if |s| < width then width else |s|
    ensures r[|r| - |s|..] == s
    ensures forall k | 0 <= k < |r| - |s| :: r[k] == fill
  {
    if |s| < width then seq(width - |s|, _ => fill) + s else s
  }

  /** One byte as two lower-case hex digits, high nibble first. */
  function ByteToHex(b: byte): (h: string)
    ensures h == [HexDigit(b / 16), HexDigit(b % 16)]
  {
    assert b >= 16 ==> ToStringRadix16(b) == [HexDigit(b / 16), HexDigit(b % 16)];
    PadStart(ToStringRadix16(b), 2, '0')
  }

  /** `hashArray.map(...).join('')`: two digits per byte, nothing but lower-case hex digits. */
  function HexEncode(bytes: seq<byte>): (h: string)
    ensures |h| == 2 * |bytes|
    ensures AllLowerHexDigits(h)
  {
    if bytes == [] then ""
    else
      var first, rest := ByteToHex(bytes[0]), HexEncode(bytes[1..]);
      AllLowerHexDigitsConcat(first, rest);
      first + rest
  }

  lemma AllLowerHexDigitsConcat(a: string, b: string)
    requires AllLowerHexDigits(a) && AllLowerHexDigits(b)
    ensures AllLowerHexDigits(a + b)
  {
  }

  /**
   * The inverse of HexEncode: reads digit pairs back into bytes, and fails on
   * an odd length or on anything but a lower-case hex digit.
   */
  function HexDecode(h: string): (r: Option<seq<byte>>)
    ensures r.Some? <==> |h| % 2 == 0 && AllLowerHexDigits(h)
    ensures r.Some? ==> |r.value| == |h| / 2
    decreases |h|
  {
    if |h| == 0 then Some([])
    else if |h| == 1 || !IsLowerHexDigit(h[0]) || !IsLowerHexDigit(h[1]) then None
    else
      match HexDecode(h[2..])
      case None => None
      case Some(rest) => Some([16 * DigitValue(h[0]) + DigitValue(h[1])] + rest)
  }

  /** Decoding the hex text of any byte sequence gives back the bytes. */
  lemma {:induction false} HexDecodeEncode(bytes: seq<byte>)
    ensures HexDecode(HexEncode(bytes)) == Some(bytes)
  {
    if bytes != [] {
      var b, rest := bytes[0], bytes[1..];
      assert bytes == [b] + rest;
      HexDecodeEncode(rest);
      HexDecodeEncodeStep(b, rest);
    }
  }

  /** The inductive step of HexDecodeEncode: one more byte in front. */
  lemma HexDecodeEncodeStep(b: byte, rest: seq<byte>)
    requires HexDecode(HexEncode(rest)) == Some(rest)
    ensures HexDecode(HexEncode([b] + rest)) == Some([b] + rest)
  {
    var h := ByteToHex(b);
    ByteToHexDigits(b);
    HexEncodeCons(b, rest);
    assert h == [h[0], h[1]];
    HexDecodeCons(h[0], h[1], HexEncode(rest), b, rest);
  }

  /** The two digits of a byte are hex digits that read back as the byte. */
  lemma ByteToHexDigits(b: byte)
    ensures var h := ByteToHex(b);
      |h| == 2 && IsLowerHexDigit(h[0]) && IsLowerHexDigit(h[1]) && 16 * DigitValue(h[0]) + DigitValue(h[1]) == b
  {
    ByteToHexToByte(b);
  }

  /** The two digits of a byte read back as that byte. */
  lemma ByteToHexToByte(b: byte)
    ensures 16 * DigitValue(HexDigit(b / 16)) + DigitValue(HexDigit(b % 16)) == b
  {
    DigitValueOfHexDigit(b / 16);
    DigitValueOfHexDigit(b % 16);
  }

  /** Every string HexDecode accepts is the hex text of what it decodes to. */
  lemma {:induction false} HexEncodeDecode(h: string)
    requires HexDecode(h).Some?
    ensures HexEncode(HexDecode(h).value) == h
    decreases |h|
  {
    if |h| > 0 {
      HexDecodeUncons(h);
      var b, rest := 16 * DigitValue(h[0]) + DigitValue(h[1]), HexDecode(h[2..]).value;
      HexEncodeDecode(h[2..]);
      DigitsToByteToHex(h[0], h[1]);
      HexEncodeCons(b, rest);
      FirstTwo(h);
    }
  }

  /** One step of HexDecode on text it accepts. */
  lemma HexDecodeUncons(h: string)
    requires |h| > 0 && HexDecode(h).Some?
    ensures |h| >= 2 && IsLowerHexDigit(h[0]) && IsLowerHexDigit(h[1]) && HexDecode(h[2..]).Some?
    ensures HexDecode(h).value == [16 * DigitValue(h[0]) + DigitValue(h[1])] + HexDecode(h[2..]).value
  {
  }

  /** One step of HexEncode. */
  lemma HexEncodeCons(b: byte, rest: seq<byte>)
    ensures HexEncode([b] + rest) == ByteToHex(b) + HexEncode(rest)
  {
    assert ([b] + rest)[1..] == rest;
  }

  /** One step of HexDecode: two digits in front of decodable text. */
  lemma HexDecodeCons(c0: char, c1: char, t: string, b: byte, rest: seq<byte>)
    requires IsLowerHexDigit(c0) && IsLowerHexDigit(c1) && HexDecode(t) == Some(rest)
    requires b == 16 * DigitValue(c0) + DigitValue(c1)
    ensures HexDecode([c0, c1] + t) == Some([b] + rest)
  {
    var h := [c0, c1] + t;
    assert h[0] == c0 && h[1] == c1 && h[2..] == t;
  }

  lemma FirstTwo(h: string)
    requires |h| >= 2
    ensures h == [h[0], h[1]] + h[2..]
  {
  }

  /** Two digits read as a byte are written back as the same two digits. */
  lemma DigitsToByteToHex(c0: char, c1: char)
    requires IsLowerHexDigit(c0) && IsLowerHexDigit(c1)
    ensures 0 <= 16 * DigitValue(c0) + DigitValue(c1) < 256
    ensures ByteToHex(16 * DigitValue(c0) + DigitValue(c1)) == [c0, c1]
  {
    NibblesCompose(DigitValue(c0), DigitValue(c1));
  }

  /** A byte is its high and low nibble. */
  lemma NibblesCompose(hi: int, lo: int)
    requires 0 <= hi < 16 && 0 <= lo < 16
    ensures (16 * hi + lo) / 16 == hi && (16 * hi + lo) % 16 == lo
  {
  }

  /** A SHA-1 digest of 20 bytes becomes a 40-character string. */
  lemma Sha1HexLength(digest: seq<byte>)
    requires |digest| == 20
    ensures |HexEncode(digest)| == 40
  {
  }

  lemma ByteToHexExamples()
    ensures ByteToHex(0) == "00" && ByteToHex(10) == "0a" && ByteToHex(171) == "ab" && ByteToHex(255) == "ff"
  {
  }
}

=== FILE: repo.dfy ===
/**
 * Repository name parsing (lib/utils.ts, `parseRepoWithOwner`): the string is
 * split at every `/` and the first two pieces become the owner and the name.
 * Nothing is validated; a missing second piece is JavaScript's `undefined`.
 */
module Repo {
  import opened Wrappers
  import opened Strings

  datatype RepoWithOwner = RepoWithOwner(owner: string, name: Option<string>)

  /** `s.split(sep)` for a one-character separator: `sep`-free pieces that join back to `s`. */
  function SplitOn(s: string, sep: char): (pieces: seq<string>)
    ensures |pieces| >= 1
    ensures forall k | 0 <= k < |pieces| :: sep !in pieces[k]
    ensures Join(pieces, sep) == s
    decreases |s|
  {
    if |s| == 0 then [""]
    else if s[0] == sep then
      var rest := SplitOn(s[1..], sep);
      JoinCons("", rest, sep);
      [""] + rest
    else
      var rest := SplitOn(s[1..], sep);
      JoinExtendFirst(s[0], rest, sep);
      [[s[0]] + rest[0]] + rest[1..]
  }

  lemma JoinExtendFirst(c: char, pieces: seq<string>, sep: char)
    requires |pieces| >= 1
    ensures Join([[c] + pieces[0]] + pieces[1..], sep) == [c] + Join(pieces, sep)
  {
    var extended := [[c] + pieces[0]] + pieces[1..];
    if |pieces| > 1 {
      assert extended[1..] == pieces[1..];
    }
  }

  /**
   * `parseRepoWithOwner`: the owner is the text before the first `/`; the name
   * is the text between the first and the second `/` (or the end), and is
   * absent exactly when there is no `/` at all.
   */
  function ParseRepoWithOwner(repoWithOwner: string): (r: RepoWithOwner)
    ensures IsPrefix(r.owner, repoWithOwner) && '/' !in r.owner
    ensures r.name.None? <==> '/' !in repoWithOwner
    ensures r.name.None? ==> r.owner == repoWithOwner
    ensures r.name.Some? ==>
              var n, k := r.name.value, |r.owner| + 1;
              && k + |n| <= |repoWithOwner|
              && repoWithOwner[k - 1] == '/'
              && repoWithOwner[k..k + |n|] == n
              && '/' !in n
              && (k + |n| == |repoWithOwner| || repoWithOwner[k + |n|] == '/')
  {
    var parts := SplitOn(repoWithOwner, '/');
    if |parts| > 1 then
      NameFollowsOwner(parts);
      RepoWithOwner(parts[0], Some(parts[1]))
    else
      RepoWithOwner(parts[0], None)
  }

  lemma NameFollowsOwner(parts: seq<string>)
    requires |parts| > 1
    ensures var s, k := Join(parts, '/'), |parts[0]| + 1;
            && k + |parts[1]| <= |s|
            && s[k - 1] == '/'
            && s[k..k + |parts[1]|] == parts[1]
            && (|parts| > 2 ==> s[k + |parts[1]|] == '/')
            && (|parts| == 2 ==> k + |parts[1]| == |s|)
  {
    var s, tail := Join(parts, '/'), Join(parts[1..], '/');
    assert s == parts[0] + ['/'] + tail;
    assert parts[1..][0] == parts[1];
    if |parts| == 2 {
      assert tail == parts[1];
    }
  }

  /** With exactly one `/`, owner and name put back together give the input. */
  lemma ParseOneSlashRoundTrip(s: string)
    requires '/' in s
    requires forall i, j | 0 <= i < |s| && 0 <= j < |s| && s[i] == '/' && s[j] == '/' :: i == j
    ensures var r := ParseRepoWithOwner(s);
            r.name.Some? && r.owner + "/" + r.name.value == s
  {
    var r := ParseRepoWithOwner(s);
    var n, k := r.name.value, |r.owner| + 1;
    assert s[k - 1] == '/';
    assert k + |n| == |s|;
    assert s == s[..k - 1] + [s[k - 1]] + s[k..k + |n|];
  }

  /** A repository reference is parsed back into its parts; text after a second `/` is ignored. */
  lemma ParseRepoWithOwnerOf(owner: string, name: string, tail: string)
    requires '/' !in owner && '/' !in name
    requires tail == [] || tail[0] == '/'
    ensures ParseRepoWithOwner(owner + "/" + name + tail) == RepoWithOwner(owner, Some(name))
  {
    var s := owner + "/" + name + tail;
    var r := ParseRepoWithOwner(s);
    assert s[|owner|] == '/';
    FirstSegmentUnique(s, r.owner, owner);
    NameSegment(s, owner, name, tail, r.name.value);
  }

  /** The name part of ParseRepoWithOwnerOf: the segment after the owner's `/`. */
  lemma NameSegment(s: string, owner: string, name: string, tail: string, n: string)
    requires s == owner + "/" + name + tail && '/' !in name && '/' !in n
    requires tail == [] || tail[0] == '/'
    requires var k := |owner| + 1;
             && k + |n| <= |s| && s[k..k + |n|] == n
             && (k + |n| == |s| || s[k + |n|] == '/')
    ensures n == name
  {
    var after := s[|owner| + 1..];
    assert after == name + tail;
    assert after[..|name|] == name;
    assert after[..|n|] == n;
    FirstSegmentUnique(after, n, name);
  }

  lemma FirstSegmentUnique(s: string, p: string, q: string)
    requires IsPrefix(p, s) && IsPrefix(q, s) && '/' !in p && '/' !in q
    requires |p| < |s| ==> s[|p|] == '/'
    requires |q| < |s| ==> s[|q|] == '/'
    ensures p == q
  {
    assert forall i | 0 <= i < |p| :: s[i] == p[i];
    assert forall i | 0 <= i < |q| :: s[i] == q[i];
  }

  lemma ParseRepoWithOwnerExample()
    ensures ParseRepoWithOwner("octo/repo") == RepoWithOwner("octo", Some("repo"))
  {
    ParseRepoWithOwnerOf("octo", "repo", "");
    assert "octo" + "/" + "repo" + "" == "octo/repo";
  }
}

=== FILE: strings.dfy ===
/** Helpers on strings shared by the modules that model `String.prototype.split`. */
module Strings {

  /** `pieces.join(sep)`: the pieces with one `sep` between each neighbouring pair. */
  function Join(pieces: seq<string>, sep: char): (s: string)
    requires |pieces| >= 1
    ensures |s| >= |pieces[0]| && s[..|pieces[0]|] == pieces[0]
    ensures |pieces| > 1 ==> |s| > |pieces[0]| && s[|pieces[0]|] == sep
    decreases |pieces|
  {
    if |pieces| == 1 then pieces[0]
    else pieces[0] + [sep] + Join(pieces[1..], sep)
  }

  /** Is `p` a prefix of `s`? */
  predicate IsPrefix(p: string, s: string) {
    |p| <= |s| && s[..|p|] == p
  }

  /** Joining a piece in front of others puts one separator after it. */
  lemma JoinCons(first: string, rest: seq<string>, sep: char)
    requires |rest| >= 1
    ensures Join([first] + rest, sep) == first + [sep] + Join(rest, sep)
  {
    assert ([first] + rest)[1..] == rest;
  }

  /** A string is its part before index `i`, the character at `i`, and the rest. */
  lemma SplitAround(s: string, start: nat, i: nat)
    requires start <= i < |s|
    ensures s[start..] == s[start..i] + [s[i]] + s[i + 1..]
  {
  }
}

=== FILE: textarea.dfy ===
/**
 * `resizeTextArea` (lib/utils.ts): the comment box grows with its text up to
 * a fixed maximum, after which it scrolls.
 */
module TextArea {

  /** The largest height, in pixels, the box grows to. */
  const MaxHeight: int := 270

  /** The height chosen for a given scroll height: the smaller of it and MaxHeight. */
  function ClampHeight(scrollHeight: int): (h: int)
    ensures h <= MaxHeight && h <= scrollHeight
    ensures h == scrollHeight || h == MaxHeight
  {
    if scrollHeight <= MaxHeight then scrollHeight else MaxHeight
  }

  /**
   * The part of a text area the source touches: the height its style sets and
   * the height its text needs once laid out.
   */
  class Element {
    var height: nat
    const contentHeight: nat

    constructor (contentHeight: nat, height: nat)
      ensures this.contentHeight == contentHeight && this.height == height
    {
      this.contentHeight := contentHeight;
      this.height := height;
    }

    /** `scrollHeight`: the text's height, or the box's own height when that is larger. */
    function ScrollHeight(): (h: nat)
      reads this
      ensures h >= height && h >= contentHeight
      ensures h == height || h == contentHeight
    {
      if height > contentHeight then height else contentHeight
    }
  }

  /**
   * `resizeTextArea`: collapses the box so that its scroll height is the
   * text's own height, then sets the height to that, clamped to MaxHeight.
   * Text that fits under the maximum is then shown whole without scrolling.
   */
  method ResizeTextArea(textarea: Element)
    modifies textarea
    ensures textarea.height == ClampHeight(textarea.contentHeight)
    ensures textarea.contentHeight <= MaxHeight ==> textarea.ScrollHeight() == textarea.height
  {
    textarea.height := 0;
    var scrollHeight := textarea.ScrollHeight();
    var height := if scrollHeight <= MaxHeight then scrollHeight else MaxHeight;
    textarea.height := height;
  }
}

=== FILE: theme.dfy ===
/**
 * Theme resolution (lib/utils.ts, `resolveTheme` and `getThemeUrl`).
 * The list of built-in themes lives outside this file in the source, so every
 * operation takes it as the parameter `available`.
 */
module Theme {
  import opened Wrappers

  /** The sentinel for "no theme chosen": follow the browser's colour scheme. */
  const PreferredColorScheme: string := "preferred_color_scheme"
  /** The tag for a theme given as a stylesheet URL of the embedding site. */
  const Custom: string := "custom"

  const ThemesDir: string := "/themes/"
  const CssSuffix: string := ".css"

  /**
   * `resolveTheme`: the empty tag becomes the sentinel, a built-in theme stays
   * as it is, and anything else is taken to be a custom stylesheet.
   */
  function ResolveTheme(theme: string, available: set<string>): (r: string)
    ensures theme == "" ==> r == PreferredColorScheme
    ensures theme != "" && theme in available ==> r == theme
    ensures theme != "" && theme !in available ==> r == Custom
    ensures r in available || r == PreferredColorScheme || r == Custom
    ensures r == theme <==> theme != "" && (theme in available || theme == Custom)
    ensures r == PreferredColorScheme && theme != PreferredColorScheme <==> theme == ""
  {
    if theme == "" then PreferredColorScheme
    else if theme in available then theme
    else Custom
  }

  /**
   * `getThemeUrl`: a custom theme is its own URL; every other theme is served
   * from the widget's themes directory.
   */
  function GetThemeUrl(resolvedTheme: string, theme: string): (url: string)
    ensures resolvedTheme == Custom ==> url == theme
    ensures resolvedTheme != Custom ==> StylesheetName(url) == Some(resolvedTheme)
  {
    if resolvedTheme == Custom then theme else ThemesDir + resolvedTheme + CssSuffix
  }

  /** The inverse of the non-custom branch of GetThemeUrl: the theme a stylesheet path serves. */
  function StylesheetName(url: string): (name: Option<string>)
    ensures name.Some? ==> ThemesDir + name.value + CssSuffix == url
  {
    if |url| >= |ThemesDir| + |CssSuffix| && url[..|ThemesDir|] == ThemesDir
       && url[|url| - |CssSuffix|..] == CssSuffix
    then Some(url[|ThemesDir|..|url| - |CssSuffix|])
    else None
  }

  /** Two different built-in themes never share a stylesheet. */
  lemma ThemeUrlInjective(r1: string, r2: string, t1: string, t2: string)
    requires r1 != Custom && r2 != Custom
    requires GetThemeUrl(r1, t1) == GetThemeUrl(r2, t2)
    ensures r1 == r2
  {
    assert StylesheetName(GetThemeUrl(r1, t1)) == Some(r1);
  }

  /**
   * For a tag resolved by ResolveTheme, the URL is the tag itself exactly when
   * the tag resolved to `custom`: a built-in theme's path is always longer than
   * the tag, and the empty tag never becomes a path equal to it.
   */
  lemma ThemeUrlIsTagIffCustom(theme: string, available: set<string>)
    ensures GetThemeUrl(ResolveTheme(theme, available), theme) == theme
            <==> ResolveTheme(theme, available) == Custom
  {
    var r := ResolveTheme(theme, available);
    if r != Custom {
      var url := GetThemeUrl(r, theme);
      assert |url| == |r| + 12;
      assert r == theme || theme == "";
    }
  }

  /**
   * Resolving an already resolved tag changes nothing for every tag exactly
   * when the sentinel is itself one of the available themes.
   */
  lemma ResolveThemeIdempotentIff(available: set<string>)
    ensures (forall t :: ResolveTheme(ResolveTheme(t, available), available) == ResolveTheme(t, available))
            <==> PreferredColorScheme in available
  {
    if PreferredColorScheme !in available {
      assert ResolveTheme(ResolveTheme("", available), available) == Custom;
    }
  }

  lemma ResolveThemeExamples()
    ensures ResolveTheme("", {"dark"}) == PreferredColorScheme
    ensures ResolveTheme("dark", {"dark"}) == "dark"
    ensures ResolveTheme("http://x", {"dark"}) == Custom
    ensures GetThemeUrl(Custom, "http://x/y.css") == "http://x/y.css"
    ensures GetThemeUrl("dark", "dark") == "/themes/dark.css"
  {
  }
}

=== FILE: values.dfy ===
/** `isEmpty` (lib/utils.ts) over the JavaScript values it can be given. */
module Values {

  /** A JavaScript number; the two zeros are one value here, as `isEmpty` cannot tell them apart. */
  datatype JsNumber = NaN | Finite(value: real) | Infinity(negative: bool)

  /** The JavaScript values `isEmpty` distinguishes; every object is `Object`. */
  datatype JsValue = Null | Undefined | Str(s: string) | Num(n: JsNumber) | Bool(b: bool) | Object

  /** `v === null || v === undefined || v === '' || Number.isNaN(v)`. */
  predicate IsEmpty(v: JsValue): (r: bool)
    ensures r ==> IsFalsy(v)
  {
    v == Null || v == Undefined || v == Str("") || v == Num(NaN)
  }

  /**
   * The falsy values among those modelled here: those that `if (v)` rejects.
   * JavaScript has two more, the BigInt `0n` and `document.all`, which this
   * value type does not represent.
   */
  predicate IsFalsy(v: JsValue) {
    match v
    case Null => true
    case Undefined => true
    case Str(s) => s == ""
    case Num(n) => n == NaN || n == Finite(0.0)
    case Bool(b) => !b
    case Object => false
  }

  /** The empty values are the falsy ones except zero and `false`, which carry content. */
  lemma IsEmptyIsFalsyButZeroOrFalse(v: JsValue)
    ensures IsEmpty(v) <==> IsFalsy(v) && v != Num(Finite(0.0)) && v != Bool(false)
  {
  }
}

=== FILE: wrappers.dfy ===
/** Optional values: JavaScript's `undefined` where the source may produce it. */
module Wrappers {

  datatype Option<+T> = None | Some(value: T)
}
